=== FILE: README.md ===
# AEC3 echo subtractor, modelled in Dafny

This project models the echo subtractor of the WebRTC AEC3 echo canceller
(`modules/audio_processing/aec3/subtractor.cc`). Every 64-sample capture block
is processed by two adaptive FIR filters, a *main* and a *shadow* filter. Each
filter predicts the echo from the render history. The prediction is turned
into a clipped time-domain error block. The subtractor then decides whether the
main filter has converged. Last, it computes an update gain for each filter and
adapts the filter with it. A sticky `converged_filter_` flag records the
convergence decision; only an echo-path-change reset clears it.

The model is functional. A `Subtractor` value holds both filters, both gain
computers and the flag. `Create`, `HandleEchoPathChange` and `Process` map one
value to the next. Everything the subtractor calls but does not own is a
function-valued field of a `Collaborators` record: the FFT, filter
predict/adapt/reset, the render buffer's spectral sum, the power spectrum, and
the gain computers. So every property holds for all behaviours of that foreign
code. Assumptions about the filters are stated as predicates.
`AdaptKeepsSize` says adaptation keeps a filter's partition count.
`FixedSizeFilters` adds that a filter has the length it was built with and that
a reset keeps it. The properties that need one of them name it in their
contract.

Files:
- `aec3_common.dfy`: block and FFT sizes (64, 128, 65 bins), fixed-length sample types, `FftData`, `Option`.
- `collaborators.dfy`: the foreign components and their operations, plus the output record.
- `energy.dfy`: the sum-of-squares accumulation used by the convergence test.
- `prediction_error.dfy`: the prediction-error stage.
- `subtractor.dfy`: construction, echo-path-change handling, the convergence test, per-block processing.
- `subtractor_runs.dfy`: runs of blocks and echo-path changes, and the properties of whole runs.

Two details of the code that are easy to misread, modelled as written:
- The inverse-FFT output is scaled by `1/kFftLengthBy2` = 1/64, the half FFT length, not by one over the full FFT length.
- The windowed spectrum of the shadow error is a local value handed to the shadow gain. It is not a field of the output record. Only its power spectrum is stored in the output.

The convergence test is modelled exactly as written. The flag is set when an
error energy EXCEEDS its fraction of the capture energy (`e2_main > 0.3·y2` or
`e2_shadow > 0.1·y2`). So a filter that predicts nothing sets the flag on the
first loud block whose samples lie in the 16-bit range.
`SubtractorRuns.LoudBlockWithSilentFilterSetsFlag` proves that for every such
block. `SubtractorRuns.FullScaleBlockWithSilentMainFilterSetsFlag` applies it to a
full-scale block.

## Model

| member | source | states |
|---|---|---|
| `PredictionErrorStage.Clamp` | modules/audio_processing/aec3/subtractor.cc:42-43 | The clamped value lies in `[lo, hi]`. A value already inside is returned unchanged. No point of the interval is closer to the input than the result. |
| `PredictionErrorStage.Clip` | modules/audio_processing/aec3/subtractor.cc:42-43 | Clipping to the 16-bit range gives a value in [-32768, 32767]. An in-range value is left as it is. |
| `PredictionErrorStage.EchoEstimateDependsOnlyOnCurrentHalf` | modules/audio_processing/aec3/subtractor.cc:31-40 | Two predictions whose inverse transforms agree on the second half (samples 64 to 127) give the same echo estimate. The first half, the previous block's wrap-around, is discarded. |
| `PredictionErrorStage.EchoEstimateIsNotClipped` | modules/audio_processing/aec3/subtractor.cc:36-43 | Some inverse transform gives an echo estimate outside [-32768, 32767]. Only the error block is clipped, not the estimate copied out. |
| `PredictionErrorStage.PredictionError` | modules/audio_processing/aec3/subtractor.cc:25-44 | Every error sample lies in [-32768, 32767], for every finite capture and inverse-FFT value. Each error sample is the clipped difference between the capture sample and the echo estimate. An echo estimate is returned exactly when a destination is requested, and then it is the unclipped estimate. |
| `PredictionErrorStage.ComputePredictionError` | modules/audio_processing/aec3/subtractor.cc:30-43 | The source's three passes give the same error block and echo estimate as `PredictionError`. The passes are the subtraction over the capture, the optional estimate copy, and the in-place clip. |
| `PredictionErrorStage.ErrorPlusEstimateIsCapture` | modules/audio_processing/aec3/subtractor.cc:33-40 | Where no clipping happens, error sample plus echo-estimate sample equals the capture sample. |
| `PredictionErrorStage.SilentPredictionPassesCapture` | modules/audio_processing/aec3/subtractor.cc:31-43 | A prediction whose current-block half is silent leaves an in-range capture block unchanged as the error block. |
| `PredictionErrorStage.ClippedErrorEnergyBounded` | modules/audio_processing/aec3/subtractor.cc:42-43 | After clipping, the energy of an error block is at most 64 · 32768², for any inputs. |
| `Energy.SumOfSquares` | modules/audio_processing/aec3/subtractor.cc:120-125 | The accumulated sum of squares is never negative. |
| `Energy.Accumulate` | modules/audio_processing/aec3/subtractor.cc:120-125 | The accumulation loop that starts at 0 and adds `b*b` for each sample returns the sum of squares of the whole block. |
| `Energy.SumOfSquaresBounded` | modules/audio_processing/aec3/subtractor.cc:120-124 | If every sample has magnitude at most m, the energy is at most n · m². |
| `EchoSubtractor.Create` | modules/audio_processing/aec3/subtractor.cc:48-60 | Both filters are built identically, with the configured length (under `FixedSizeFilters`). The main gain gets leakage-converged, leakage-diverged, main noise gate and error floor. The shadow gain gets shadow rate and shadow noise gate. The flag starts false. |
| `EchoSubtractor.HandleEchoPathChange` | modules/audio_processing/aec3/subtractor.cc:66-89 | Buffer flush, delay reset, new detected delay and buffer readjustment all perform the same full reset. These are exactly the categories other than "no adjustment", which leaves the state unchanged. A full reset clears the flag and resets both filters. It resets the main gain with the path variability and the shadow gain without it. Gain tuning, and filter lengths under `FixedSizeFilters`, are preserved. |
| `EchoSubtractor.UpdateConvergence` | modules/audio_processing/aec3/subtractor.cc:119-130 | A true flag stays true. A capture energy at or below 64·50·50 leaves the flag unchanged. From false above the floor, the new flag holds iff `e2_main > 0.3·y2` or `e2_shadow > 0.1·y2`. |
| `EchoSubtractor.Process` | modules/audio_processing/aec3/subtractor.cc:91-153 | Requires a 64-sample capture block. Both error blocks lie in the sample range, and each is the prediction error of its own filter as it stood before adaptation. The flag is judged on those clipped blocks and never goes from true to false. The main gain's spectral sum covers the main filter's partitions. The shadow gain's sum is recomputed over the shadow filter's partitions when that length differs from the ADAPTED main length; otherwise the main sum is reused. Under `AdaptKeepsSize`, the shadow gain's spectral sum therefore covers the shadow filter's partitions, and filter lengths do not change. The main error is transformed with a Hanning and with a rectangular window, and the shadow error with a Hanning window. The power spectra in the output are taken of those transforms. Each filter adapts with the gain computed for it, and each gain computer's memory is updated by that computation. The main gain is given the complete output record and the unadapted main filter. The shadow gain is given the windowed shadow error spectrum and the shadow filter's length. Gain tuning never changes. |
| `SubtractorRuns.Step` | modules/audio_processing/aec3/subtractor.cc:66-153 | One event is either a processed block or a path change. A set flag survives every event except a reset. A quiet block or a non-resetting change leaves the flag alone, and a reset clears it. No event changes gain tuning. Under `FixedSizeFilters`, no event changes filter lengths. |
| `SubtractorRuns.ConvergedStaysUntilReset` | modules/audio_processing/aec3/subtractor.cc:119-130 | Once the flag is true, it stays true through any run of blocks and non-resetting path changes. |
| `SubtractorRuns.FlagClearedOnlyByReset` | modules/audio_processing/aec3/subtractor.cc:66-89 | If the flag is true before a run and false after it, the run contains a resetting echo-path change. |
| `SubtractorRuns.ResetClearsFlagAfterAnyRun` | modules/audio_processing/aec3/subtractor.cc:68-88 | After any history, a resetting echo-path change leaves the flag false. |
| `SubtractorRuns.QuietRunKeepsFlag` | modules/audio_processing/aec3/subtractor.cc:125-129 | A run of blocks whose capture energy is at most the floor, mixed with non-resetting path changes, leaves the flag as it was. |
| `SubtractorRuns.RunKeepsTuning` | modules/audio_processing/aec3/subtractor.cc:56-60 | Over any run of blocks and path changes, both gains keep the tuning the constructor gave them. |
| `SubtractorRuns.RunKeepsLengths` | modules/audio_processing/aec3/subtractor.cc:139-153 | Under `FixedSizeFilters`, both filter lengths stay the same over any run. |
| `SubtractorRuns.CreatedSubtractorSharesSpectralSum` | modules/audio_processing/aec3/subtractor.cc:139-150 | For a subtractor built by `Create` with fixed-size filters, both filters keep the configured length forever. At every block the shadow gain receives the same spectral sum as the main gain, taken over that length. |
| `SubtractorRuns.ResizingAdaptationReusesMainSpectralSum` | modules/audio_processing/aec3/subtractor.cc:139-150 | Whenever adaptation makes the main filter as long as the shadow filter, the shadow gain is given the spectral sum for the main filter's old length. |
| `SubtractorRuns.ShadowSumNeedsSizeKeepingAdaptation` | modules/audio_processing/aec3/subtractor.cc:139-150 | There are collaborators and a state for which the shadow gain's spectral sum does not cover the shadow filter's partitions. This is why the shadow-sum property needs `AdaptKeepsSize`. |
| `SubtractorRuns.SilentCaptureKeepsFlag` | modules/audio_processing/aec3/subtractor.cc:125-129 | An all-zero capture block never changes the flag. |
| `SubtractorRuns.SilentBlocksNeverConverge` | modules/audio_processing/aec3/subtractor.cc:119-130 | A freshly created subtractor fed any number of silent blocks never reports a converged filter. |
| `SubtractorRuns.LoudBlockWithSilentFilterSetsFlag` | modules/audio_processing/aec3/subtractor.cc:108-128 | Take an unconverged state, an in-range capture block whose energy exceeds 64·50·50, and a main filter that predicts silence. The main error equals the capture and the flag becomes true. |
| `SubtractorRuns.FullScaleBlockWithSilentMainFilterSetsFlag` | modules/audio_processing/aec3/subtractor.cc:108-128 | Take a full-scale block (±32767) and a main filter that predicts silence. The main error equals the capture, the capture energy is 64 · 32767², and the flag becomes true. |

## Left out

- The FFT (`Ifft`, `ZeroPaddedFft`, Hanning and rectangular windows) and `FftData::Spectrum` are external numeric transforms. They are function-valued parameters.
- The adaptive FIR filters (`Filter`, `Adapt`, `HandleEchoPathChange`, `SizePartitions`, construction) are modelled as a length plus opaque coefficients produced by external functions. Their internals are not part of this model.
- The render buffer's `SpectralSum` is an external function of the buffer and a partition count.
- The source computes both filter predictions and both gains in one buffer: `G` is a reference to `S` (lines 104-105). So the shadow filter's `Filter` (line 115) receives a buffer that still holds the main prediction. The main gain's `Compute` (line 140) receives the shadow prediction, and the shadow gain's `Compute` (line 150) receives the main gain. The model passes none of these earlier contents: `filter` and the two gain computations produce fresh values. It therefore assumes that each of these collaborators writes its whole output buffer without reading it first.
- The internal math and memory of the main and shadow update-gain computers are not modelled. Each is an opaque function of exactly the inputs the subtractor passes to it.
- The render signal analyzer is passed through untouched. Of the echo-canceller state, only `SaturatedCapture()` is modelled.
- The data-dumper calls for the gains and filters (lines 143-144, 155-159) and the `data_dumper_` check in the constructor are diagnostics without behavioural effect. The gains the dumper would see are kept in `ProcessTrace`.
- The `optimization_` setting is passed to both filter constructors (lines 54-55) and to the power-spectrum computations (lines 133-135). It selects a SIMD code path, has no semantic effect, and is not modelled.
- Single-precision rounding of the accumulations, the scaling and the comparisons against the `double` ratios is not modelled. Samples and energies are exact reals.
- NaN and infinite samples are not modelled. The source's clamp returns a NaN unchanged, so the clip bound and the energy bound hold for finite samples only.
- `subtractor.h`, `aec3_common.h` and `echo_path_variability.h` are not part of this model. `subtractor.cc` names `kBlockSize`, `kFftLength`, `kFftLengthBy2` and `kFftLengthBy2Plus1` but does not define them. The values 64, 128, 64 and 65 are the assumed values of these header constants.
- The initial `converged_filter_ = false` is an assumed member initialiser from the header. `subtractor.cc` assigns the flag only in the reset (line 73) and the convergence test (line 128).
- The `NoDelayAdjustment` category and the `gainChange` field of the echo-path variability are assumed from the header. `subtractor.cc` compares only against the four resetting categories (lines 77-86), and the model's remaining category stands for every other value. Only the output-record fields come from their use in `subtractor.cc`.
- EchoSubtractor.Process: its guarantees that the shadow spectral sum covers the shadow filter's partitions and that lengths are unchanged hold only under `AdaptKeepsSize`, because the source re-reads the main filter's length after adapting it (line 147). `SubtractorRuns.ShadowSumNeedsSizeKeepingAdaptation` shows the guarantee fails without the assumption.

=== FILE: aec3_common.dfy ===
/**
 Shared AEC3 vocabulary: block and FFT sizes, the fixed-length sample buffers
 built on them, frequency-domain data, and a small Option type standing in for
 the nullable output pointers of the echo subtractor.

 Samples and energies are `real`: the model does not follow IEEE-754 rounding
 of the single-precision arithmetic.
 */
module Aec3Common {

  /** Samples per audio block. */
  const kBlockSize: nat := 64
  /** Half the FFT length; equal to the block size. */
  const kFftLengthBy2: nat := 64
  /** FFT length: two blocks, for overlap-save filtering. */
  const kFftLength: nat := 128
  /** Number of frequency bins of a real FFT of length kFftLength. */
  const kFftLengthBy2Plus1: nat := 65

  /** One block of time-domain samples. */
  type Block = s: seq<real> | |s| == kBlockSize witness seq(kBlockSize, _ => 0.0)

  /** A full FFT-length time buffer, as the inverse transform produces it. */
  type FftBuffer = s: seq<real> | |s| == kFftLength witness seq(kFftLength, _ => 0.0)

  /** A per-bin power spectrum (or a sum of such spectra). */
  type Spectrum = s: seq<real> | |s| == kFftLengthBy2Plus1 witness seq(kFftLengthBy2Plus1, _ => 0.0)

  /** Frequency-domain data: real and imaginary parts per bin. Its contents are
      produced and consumed only by collaborators, never inspected here. */
  datatype FftData = FftData(re: seq<real>, im: seq<real>)

  /** Window applied before a zero-padded forward FFT. */
  datatype Window = Rectangular | Hanning

  /** An optional value; `None` plays the role of a null destination pointer. */
  datatype Option<+T> = None | Some(value: T)
}

=== FILE: collaborators.dfy ===
/**
 The components the echo subtractor drives but does not own the logic of: the
 FFT, the two adaptive FIR filters, the render buffer's spectral sum, the power
 spectrum of FFT data, and the two filter-update gain computers.

 Each collaborator operation is a function-valued field of `Collaborators`, so
 the subtractor is modelled over every possible behaviour of them. Whatever the
 model needs to assume about them is written down as a predicate
 (`FixedSizeFilters`) and required explicitly where it is used.
 */
module Aec3Collaborators {
  import opened Aec3Common

  /** The FFT object: inverse transform to a full-length time buffer, and
      zero-padded forward transform of one block with a chosen window. */
  datatype Aec3Fft = Aec3Fft(
    ifft: FftData -> FftBuffer,
    zeroPaddedFft: (Block, Window) -> FftData)

  /** The render signal history; opaque to the subtractor. */
  datatype RenderBuffer = RenderBuffer(spectra: seq<Spectrum>)

  /** The render narrow-band analyzer; opaque, passed through to the gains. */
  datatype RenderSignalAnalyzer = RenderSignalAnalyzer(narrowBandCounters: seq<nat>)

  /** The echo canceller state, reduced to the one query the subtractor makes. */
  datatype AecState = AecState(saturatedCapture: bool)

  /** How the echo path changed since the previous block. */
  datatype DelayAdjustment =
    | NoDelayAdjustment
    | BufferReadjustment
    | BufferFlush
    | DelayReset
    | NewDetectedDelay

  datatype EchoPathVariability = EchoPathVariability(gainChange: bool, delayChange: DelayAdjustment)

  /** An adaptive FIR filter: its length in partitions and its learnt
      coefficients, both produced by the filter's own code. */
  datatype AdaptiveFilter = AdaptiveFilter(sizePartitions: nat, coefficients: seq<FftData>)

  /** Tuning of the main filter's update gain. */
  datatype MainGainConfig = MainGainConfig(
    leakageConverged: real,
    leakageDiverged: real,
    noiseGate: real,
    errorFloor: real)

  /** Tuning of the shadow filter's update gain. */
  datatype ShadowGainConfig = ShadowGainConfig(rate: real, noiseGate: real)

  /** A gain computer: its fixed tuning and its evolving internal memory
      (counters, error estimates), which only its own code interprets. */
  datatype MainGain = MainGain(config: MainGainConfig, memory: seq<real>)
  datatype ShadowGain = ShadowGain(config: ShadowGainConfig, memory: seq<real>)

  /** What a gain computation returns: the updated memory and the gain G. */
  datatype GainStep = GainStep(memory: seq<real>, G: FftData)

  /** The fields of the echo canceller configuration the subtractor reads. */
  datatype FilterConfig = FilterConfig(
    lengthBlocks: nat,
    leakageConverged: real,
    leakageDiverged: real,
    mainNoiseGate: real,
    errorFloor: real,
    shadowRate: real,
    shadowNoiseGate: real)

  /** Records produced by the subtractor and read by the main gain computer
      (declared here because the main gain receives the whole record). All
      time-domain fields are blocks, all power spectra have one value per bin. */
  datatype SubtractorOutput = SubtractorOutput(
    sMain: Block,
    eMain: Block,
    eShadow: Block,
    EMain: FftData,
    EMainNonwindowed: FftData,
    E2Main: Spectrum,
    E2MainNonwindowed: Spectrum,
    E2Shadow: Spectrum)

  /** Every foreign operation the subtractor calls. */
  datatype Collaborators = Collaborators(
    fft: Aec3Fft,
    // FftData::Spectrum
    spectrum: FftData -> Spectrum,
    // RenderBuffer::SpectralSum over the given number of partitions
    spectralSum: (RenderBuffer, nat) -> Spectrum,
    // AdaptiveFirFilter: construction with a length, Filter, Adapt, HandleEchoPathChange
    newFilter: nat -> AdaptiveFilter,
    filter: (AdaptiveFilter, RenderBuffer) -> FftData,
    adapt: (AdaptiveFilter, RenderBuffer, FftData) -> AdaptiveFilter,
    resetFilter: AdaptiveFilter -> AdaptiveFilter,
    // MainFilterUpdateGain: initial memory, Compute, HandleEchoPathChange
    mainGainInit: MainGainConfig -> seq<real>,
    mainGainCompute: (MainGain, Spectrum, RenderSignalAnalyzer, SubtractorOutput, AdaptiveFilter, bool) -> GainStep,
    mainGainReset: (MainGain, EchoPathVariability) -> seq<real>,
    // ShadowFilterUpdateGain: initial memory, Compute, HandleEchoPathChange
    shadowGainInit: ShadowGainConfig -> seq<real>,
    shadowGainCompute: (ShadowGain, Spectrum, RenderSignalAnalyzer, FftData, nat, bool) -> GainStep,
    shadowGainReset: ShadowGain -> seq<real>)

  /** The assumption that adapting a filter keeps its partition count. */
  ghost predicate AdaptKeepsSize(ops: Collaborators) {
    forall f, rb, g :: ops.adapt(f, rb, g).sizePartitions == f.sizePartitions
  }

  /** The assumption that a filter has the length it was built with and that
      neither adaptation nor a reset changes it. */
  ghost predicate FixedSizeFilters(ops: Collaborators) {
    && (forall n: nat :: ops.newFilter(n).sizePartitions == n)
    && AdaptKeepsSize(ops)
    && (forall f :: ops.resetFilter(f).sizePartitions == f.sizePartitions)
  }
}

=== FILE: energy.dfy ===
/**
 Signal energy as the subtractor measures it: a left fold adding the square of
 each sample to an accumulator that starts at zero.
 */
module Energy {

  /** The sum of squares of `s`, folded from the left like `std::accumulate`. */
  function SumOfSquares(s: seq<real>): (r: real)
    ensures r >= 0.0
  {
    if |s| == 0 then 0.0
    else
      var last := s[|s| - 1];
      SquareNonNegative(last);
      SumOfSquares(s[..|s| - 1]) + last * last
  }

  /** A square is never negative. */
  lemma SquareNonNegative(x: real)
    ensures x * x >= 0.0
  {
  }

  /** |x| <= m implies x * x <= m * m. */
  lemma SquareMonotone(x: real, m: real)
    requires -m <= x <= m
    ensures x * x <= m * m
  {
  }

  /** The accumulation loop: after visiting every sample the accumulator holds
      the energy of the whole sequence. */
  method Accumulate(s: seq<real>) returns (acc: real)
    ensures acc == SumOfSquares(s)
  {
    acc := 0.0;
    var i := 0;
    while i < |s|
      invariant 0 <= i <= |s|
      invariant acc == SumOfSquares(s[..i])
    {
      assert s[..i + 1][..i] == s[..i];
      acc := acc + s[i] * s[i];
      i := i + 1;
    }
    assert s[..|s|] == s;
  }

  /** Every sample having the same square `c` makes the energy `|s| * c`. */
  lemma {:induction false} SumOfSquaresOfConstantPower(s: seq<real>, c: real)
    requires forall i :: 0 <= i < |s| ==> s[i] * s[i] == c
    ensures SumOfSquares(s) == (|s| as real) * c
  {
    if |s| > 0 {
      var p := s[..|s| - 1];
      assert forall i :: 0 <= i < |p| ==> p[i] == s[i];
      SumOfSquaresOfConstantPower(p, c);
      calc {
        SumOfSquares(s);
        SumOfSquares(p) + s[|s| - 1] * s[|s| - 1];
        (|p| as real) * c + c;
        { assert |s| as real == (|p| as real) + 1.0; }
        (|s| as real) * c;
      }
    }
  }

  /** An all-zero sequence has zero energy. */
  lemma {:induction false} SumOfSquaresOfSilence(s: seq<real>)
    requires forall i :: 0 <= i < |s| ==> s[i] == 0.0
    ensures SumOfSquares(s) == 0.0
  {
    forall i | 0 <= i < |s|
      ensures s[i] * s[i] == 0.0
    {
      assert s[i] == 0.0;
    }
    SumOfSquaresOfConstantPower(s, 0.0);
  }

  /** Samples bounded in magnitude by `m` bound the energy by `|s| * m²`. */
  lemma {:induction false} SumOfSquaresBounded(s: seq<real>, m: real)
    requires m >= 0.0
    requires forall i :: 0 <= i < |s| ==> -m <= s[i] <= m
    ensures SumOfSquares(s) <= (|s| as real) * (m * m)
  {
    if |s| > 0 {
      var p := s[..|s| - 1];
      assert forall i :: 0 <= i < |p| ==> p[i] == s[i];
      SumOfSquaresBounded(p, m);
      var x := s[|s| - 1];
      SquareMonotone(x, m);
      var k := m * m;
      assert |s| as real == (|p| as real) + 1.0;
      assert (|s| as real) * k == (|p| as real) * k + k;
      assert SumOfSquares(s) == SumOfSquares(p) + x * x;
    }
  }
}

=== FILE: prediction_error.dfy ===
/**
 The prediction-error stage: turn a filter's frequency-domain echo estimate
 into the time-domain error block `e = clip(y - s)`, where `s`, the echo
 estimate, is the scaled second half of the inverse FFT (overlap-save), and
 optionally hand back `s` itself.
 */
module PredictionErrorStage {
  import opened Aec3Common
  import opened Aec3Collaborators
  import opened Energy

  /** Lower and upper clip bounds: the 16-bit signed sample range. */
  const kClipMin: real := -32768.0
  const kClipMax: real := 32767.0

  /** Scale applied to the inverse FFT output. */
  const kScale: real := 1.0 / (kFftLengthBy2 as real)

  function Distance(a: real, b: real): (d: real) {
    if a >= b then a - b else b - a
  }

  /** Clamp `x` into `[lo, hi]`: the point of that interval nearest to `x`. */
  function Clamp(x: real, lo: real, hi: real): (r: real)
    requires lo <= hi
    ensures lo <= r <= hi
    ensures lo <= x <= hi ==> r == x
    ensures forall z :: lo <= z <= hi ==> Distance(r, x) <= Distance(z, x)
  {
    if x < lo then lo else if hi < x then hi else x
  }

  /** Clamp to the sample range. */
  function Clip(x: real): (r: real)
    ensures kClipMin <= r <= kClipMax
    ensures kClipMin <= x <= kClipMax ==> r == x
  {
    Clamp(x, kClipMin, kClipMax)
  }

  predicate InSampleRange(s: seq<real>) {
    forall i :: 0 <= i < |s| ==> kClipMin <= s[i] <= kClipMax
  }

  /** The error block and, when one was asked for, the echo estimate. */
  datatype PredictionOutput = PredictionOutput(e: Block, s: Option<Block>)

  /** The scaled current-block half of the inverse FFT of `S`: the echo
      estimate in the time domain. */
  function EchoEstimate(fft: Aec3Fft, S: FftData): (s: Block)
    ensures forall k :: 0 <= k < kBlockSize ==>
      s[k] == kScale * fft.ifft(S)[k + kFftLengthBy2]
  {
    var tmp := fft.ifft(S);
    seq(kBlockSize, k requires 0 <= k < kBlockSize => kScale * tmp[k + kFftLengthBy2])
  }

  /** Overlap-save: the echo estimate depends only on the current-block half
      of the inverse transform; the half holding the previous block's
      wrap-around is discarded. */
  lemma EchoEstimateDependsOnlyOnCurrentHalf(fft: Aec3Fft, S1: FftData, S2: FftData)
    requires fft.ifft(S1)[kFftLengthBy2..] == fft.ifft(S2)[kFftLengthBy2..]
    ensures EchoEstimate(fft, S1) == EchoEstimate(fft, S2)
  {
    forall k | 0 <= k < kBlockSize
      ensures EchoEstimate(fft, S1)[k] == EchoEstimate(fft, S2)[k]
    {
      assert fft.ifft(S1)[k + kFftLengthBy2] == fft.ifft(S1)[kFftLengthBy2..][k];
      assert fft.ifft(S2)[k + kFftLengthBy2] == fft.ifft(S2)[kFftLengthBy2..][k];
    }
  }

  /** The echo estimate is not clipped: an inverse transform whose current
      half holds 64 * 40000 gives an estimate of 40000, outside the sample
      range. */
  lemma EchoEstimateIsNotClipped()
    ensures exists fft: Aec3Fft, S: FftData :: !InSampleRange(EchoEstimate(fft, S))
  {
    var loud: FftBuffer := seq(kFftLength, _ => 64.0 * 40000.0);
    var fft := Aec3Fft(_ => loud, (_, _) => FftData([], []));
    var S := FftData([], []);
    assert EchoEstimate(fft, S)[0] == 40000.0;
  }

  /** The prediction error of `S` against the capture block `y`. Every error
      sample is the clipped difference between the capture sample and the echo
      estimate; the echo estimate itself is returned, unclipped, exactly when
      `wantEstimate` holds. */
  function PredictionError(fft: Aec3Fft, S: FftData, y: seq<real>, wantEstimate: bool): (r: PredictionOutput)
    requires |y| == kBlockSize
    ensures InSampleRange(r.e)
    ensures forall i :: 0 <= i < kBlockSize ==>
      r.e[i] == Clip(y[i] - EchoEstimate(fft, S)[i])
    ensures r.s.Some? <==> wantEstimate
    ensures r.s.Some? ==> r.s.value == EchoEstimate(fft, S)
  {
    var s := EchoEstimate(fft, S);
    var e := seq(kBlockSize, i requires 0 <= i < kBlockSize => Clip(y[i] - s[i]));
    PredictionOutput(e, if wantEstimate then Some(s) else None)
  }

  /** The stage as the source computes it, pass by pass: subtract the scaled
      inverse transform from the capture, copy out the echo estimate when a
      destination is given, then clip the error block in place. */
  method ComputePredictionError(fft: Aec3Fft, S: FftData, y: seq<real>, wantEstimate: bool)
    returns (e: seq<real>, s: Option<seq<real>>)
    requires |y| == kBlockSize
    ensures |e| == kBlockSize
    ensures e == PredictionError(fft, S, y, wantEstimate).e
    ensures s.Some? <==> wantEstimate
    ensures s.Some? ==> s.value == EchoEstimate(fft, S)
  {
    var tmp := fft.ifft(S);
    // e[i] = y[i] - tmp[kFftLengthBy2 + i] * kScale over the capture block
    e := [];
    var i := 0;
    while i < |y|
      invariant 0 <= i <= |y|
      invariant |e| == i
      invariant forall j :: 0 <= j < i ==> e[j] == y[j] - tmp[kFftLengthBy2 + j] * kScale
    {
      e := e + [y[i] - tmp[kFftLengthBy2 + i] * kScale];
      i := i + 1;
    }

    s := None;
    if wantEstimate {
      var est := [];
      var k := 0;
      while k < kBlockSize
        invariant 0 <= k <= kBlockSize
        invariant |est| == k
        invariant forall j :: 0 <= j < k ==> est[j] == kScale * tmp[j + kFftLengthBy2]
      {
        est := est + [kScale * tmp[k + kFftLengthBy2]];
        k := k + 1;
      }
      s := Some(est);
    }

    // clip every error sample into the 16-bit range
    i := 0;
    while i < |e|
      invariant 0 <= i <= |e| == kBlockSize
      invariant forall j :: 0 <= j < i ==> e[j] == Clip(y[j] - tmp[kFftLengthBy2 + j] * kScale)
      invariant forall j :: i <= j < |e| ==> e[j] == y[j] - tmp[kFftLengthBy2 + j] * kScale
    {
      e := e[i := Clip(e[i])];
      i := i + 1;
    }
    assert forall j :: 0 <= j < kBlockSize ==> EchoEstimate(fft, S)[j] == tmp[kFftLengthBy2 + j] * kScale;
  }

  /** Where no clipping happens the error and the echo estimate add back up to
      the capture block: the estimate explains exactly the part of `y` that the
      error no longer holds. */
  lemma ErrorPlusEstimateIsCapture(fft: Aec3Fft, S: FftData, y: seq<real>, i: nat)
    requires |y| == kBlockSize
    requires i < kBlockSize
    requires kClipMin <= y[i] - EchoEstimate(fft, S)[i] <= kClipMax
    ensures PredictionError(fft, S, y, true).e[i] + PredictionError(fft, S, y, true).s.value[i] == y[i]
  {
  }

  /** A filter whose prediction is silent (zero current-block half of the
      inverse FFT) passes an in-range capture block through unchanged. */
  lemma SilentPredictionPassesCapture(fft: Aec3Fft, S: FftData, y: seq<real>, wantEstimate: bool)
    requires |y| == kBlockSize
    requires InSampleRange(y)
    requires forall k :: kFftLengthBy2 <= k < kFftLength ==> fft.ifft(S)[k] == 0.0
    ensures PredictionError(fft, S, y, wantEstimate).e == y
  {
  }

  /** Clipping bounds the energy of every error block, however large the
      capture or the prediction: at most 64 samples of magnitude 32768. */
  lemma ClippedErrorEnergyBounded(fft: Aec3Fft, S: FftData, y: seq<real>, wantEstimate: bool)
    requires |y| == kBlockSize
    ensures SumOfSquares(PredictionError(fft, S, y, wantEstimate).e) <= 64.0 * (32768.0 * 32768.0)
  {
    var e := PredictionError(fft, S, y, wantEstimate).e;
    SumOfSquaresBounded(e, 32768.0);
  }
}

=== FILE: subtractor.dfy ===
/**
 The AEC3 echo subtractor: a main and a shadow adaptive filter, a gain
 computer for each, and the sticky "converged filter" flag. Construction,
 echo-path-change handling and per-block processing are pure functions from
 one `Subtractor` value to the next.
 */
module EchoSubtractor {
  import opened Aec3Common
  import opened Aec3Collaborators
  import opened Energy
  import opened PredictionErrorStage

  /** Capture energy a block must exceed before convergence is judged: an
      average sample magnitude above 50. */
  const kConvergenceEnergyFloor: real := (kBlockSize as real) * 50.0 * 50.0
  /** Fractions of the capture energy the main and shadow error energies are
      compared against. */
  const kMainErrorRatio: real := 0.3
  const kShadowErrorRatio: real := 0.1

  datatype Subtractor = Subtractor(
    main: AdaptiveFilter,
    shadow: AdaptiveFilter,
    gMain: MainGain,
    gShadow: ShadowGain,
    convergedFilter: bool)

  /** A fresh subtractor: both filters built with the configured length, the
      gains built from their parts of the configuration, the flag cleared. */
  function Create(ops: Collaborators, config: FilterConfig): (r: Subtractor)
    ensures !r.convergedFilter
    ensures r.main == r.shadow
    ensures FixedSizeFilters(ops) ==> r.main.sizePartitions == config.lengthBlocks
    ensures r.gMain.config == MainGainConfig(config.leakageConverged, config.leakageDiverged,
                                             config.mainNoiseGate, config.errorFloor)
    ensures r.gShadow.config == ShadowGainConfig(config.shadowRate, config.shadowNoiseGate)
  {
    var mainConfig := MainGainConfig(config.leakageConverged, config.leakageDiverged,
                                     config.mainNoiseGate, config.errorFloor);
    var shadowConfig := ShadowGainConfig(config.shadowRate, config.shadowNoiseGate);
    Subtractor(
      ops.newFilter(config.lengthBlocks),
      ops.newFilter(config.lengthBlocks),
      MainGain(mainConfig, ops.mainGainInit(mainConfig)),
      ShadowGain(shadowConfig, ops.shadowGainInit(shadowConfig)),
      false)
  }

  // ---------------------------------------------------------------------------
  // Echo path changes

  /** The delay adjustments after which the subtractor starts over. */
  predicate RequestsFullReset(d: DelayAdjustment) {
    d == BufferFlush || d == DelayReset || d == NewDetectedDelay || d == BufferReadjustment
  }

  /** React to an echo path change: every category except "no adjustment"
      performs the same full reset; "no adjustment" changes nothing. The
      full reset clears the flag and resets both filters and both gains (only
      the main gain is told what changed); the gains keep their tuning. */
  function HandleEchoPathChange(ops: Collaborators, st: Subtractor, v: EchoPathVariability): (r: Subtractor)
    // a reset clears the flag, resets both filters, resets the main gain with
    // the path variability and the shadow gain without it
    ensures RequestsFullReset(v.delayChange) ==>
      && !r.convergedFilter
      && r.main == ops.resetFilter(st.main)
      && r.shadow == ops.resetFilter(st.shadow)
      && r.gMain == MainGain(st.gMain.config, ops.mainGainReset(st.gMain, v))
      && r.gShadow == ShadowGain(st.gShadow.config, ops.shadowGainReset(st.gShadow))
    ensures RequestsFullReset(v.delayChange) <==> v.delayChange != NoDelayAdjustment
    ensures v.delayChange == NoDelayAdjustment ==> r == st
    ensures r.gMain.config == st.gMain.config && r.gShadow.config == st.gShadow.config
    ensures FixedSizeFilters(ops) ==>
      r.main.sizePartitions == st.main.sizePartitions && r.shadow.sizePartitions == st.shadow.sizePartitions
  {
    var fullReset := Subtractor(
      ops.resetFilter(st.main),
      ops.resetFilter(st.shadow),
      MainGain(st.gMain.config, ops.mainGainReset(st.gMain, v)),
      ShadowGain(st.gShadow.config, ops.shadowGainReset(st.gShadow)),
      false);
    var d := v.delayChange;
    if d == BufferFlush || d == DelayReset then
      fullReset
    else if d == NewDetectedDelay then
      fullReset
    else if d == BufferReadjustment then
      fullReset
    else
      st
  }

  // ---------------------------------------------------------------------------
  // Convergence detection

  /** The converged flag after one block. It is only re-evaluated while it is
      still false, and only for a capture block whose energy `y2` exceeds the
      floor; then it is set from the energy-ratio test on the clipped error
      blocks. It can therefore never go from true to false here. */
  function UpdateConvergence(converged: bool, eMain: seq<real>, eShadow: seq<real>, y: seq<real>): (c: bool)
    ensures converged ==> c
    ensures SumOfSquares(y) <= kConvergenceEnergyFloor ==> c == converged
    ensures !converged && SumOfSquares(y) > kConvergenceEnergyFloor ==>
      (c <==> (|| SumOfSquares(eMain) > kMainErrorRatio * SumOfSquares(y)
               || SumOfSquares(eShadow) > kShadowErrorRatio * SumOfSquares(y)))
  {
    if converged then converged
    else
      var e2Main := SumOfSquares(eMain);
      var e2Shadow := SumOfSquares(eShadow);
      var y2 := SumOfSquares(y);
      if y2 > kConvergenceEnergyFloor then
        e2Main > kMainErrorRatio * y2 || e2Shadow > kShadowErrorRatio * y2
      else
        converged
  }

  // ---------------------------------------------------------------------------
  // Per-block processing

  /** The values the two gain computations were given and produced; the gains
      are what the source hands to its diagnostics sink. */
  datatype ProcessTrace = ProcessTrace(x2Main: Spectrum, x2Shadow: Spectrum, gMain: FftData, gShadow: FftData)

  datatype ProcessResult = ProcessResult(state: Subtractor, output: SubtractorOutput, trace: ProcessTrace)

  /** Process one capture block.

      Main path, then shadow path: predict with the filter as it stood at the
      start of the block, form the clipped prediction error, transform it.
      Then the convergence check, the power spectra, the main gain (computed
      from the render spectral sum over the main filter's partitions, given
      the complete output record and the unadapted main filter) and the main
      adaptation; then the shadow gain, whose render spectral sum is
      recomputed for the shadow filter's partition count whenever it differs
      from the (adapted) main filter's, and the shadow adaptation. */
  function Process(
    ops: Collaborators,
    st: Subtractor,
    rb: RenderBuffer,
    capture: seq<real>,
    analyzer: RenderSignalAnalyzer,
    aecState: AecState
  ): (r: ProcessResult)
    requires |capture| == kBlockSize
    // both error blocks stay in the sample range
    ensures InSampleRange(r.output.eMain) && InSampleRange(r.output.eShadow)
    // each error block is the prediction error of its own unadapted filter
    ensures r.output.eMain == PredictionError(ops.fft, ops.filter(st.main, rb), capture, true).e
    ensures r.output.sMain == EchoEstimate(ops.fft, ops.filter(st.main, rb))
    ensures r.output.eShadow == PredictionError(ops.fft, ops.filter(st.shadow, rb), capture, false).e
    // the main error is transformed with and without a window, the shadow
    // error with one, and the power spectra are taken of those transforms
    ensures r.output.EMain == ops.fft.zeroPaddedFft(r.output.eMain, Hanning)
    ensures r.output.EMainNonwindowed == ops.fft.zeroPaddedFft(r.output.eMain, Rectangular)
    ensures r.output.E2Main == ops.spectrum(r.output.EMain)
    ensures r.output.E2MainNonwindowed == ops.spectrum(r.output.EMainNonwindowed)
    ensures r.output.E2Shadow == ops.spectrum(ops.fft.zeroPaddedFft(r.output.eShadow, Hanning))
    // the flag is judged on the clipped error blocks written to the output
    ensures r.state.convergedFilter ==
      UpdateConvergence(st.convergedFilter, r.output.eMain, r.output.eShadow, capture)
    ensures st.convergedFilter ==> r.state.convergedFilter
    // the spectral sums handed to the gains match the filter each gain serves
    ensures r.trace.x2Main == ops.spectralSum(rb, st.main.sizePartitions)
    ensures r.trace.x2Shadow ==
      if st.shadow.sizePartitions != r.state.main.sizePartitions
      then ops.spectralSum(rb, st.shadow.sizePartitions)
      else r.trace.x2Main
    ensures AdaptKeepsSize(ops) ==> r.trace.x2Shadow == ops.spectralSum(rb, st.shadow.sizePartitions)
    // each filter adapts with the gain computed for it this block
    ensures r.state.main == ops.adapt(st.main, rb, r.trace.gMain)
    ensures r.state.shadow == ops.adapt(st.shadow, rb, r.trace.gShadow)
    ensures
      var mainStep := ops.mainGainCompute(st.gMain, r.trace.x2Main, analyzer, r.output, st.main,
                                          aecState.saturatedCapture);
      r.trace.gMain == mainStep.G && r.state.gMain.memory == mainStep.memory
    // the shadow gain sees the windowed shadow error spectrum and the
    // shadow filter's own length
    ensures
      var shadowStep := ops.shadowGainCompute(st.gShadow, r.trace.x2Shadow, analyzer,
                                              ops.fft.zeroPaddedFft(r.output.eShadow, Hanning),
                                              st.shadow.sizePartitions, aecState.saturatedCapture);
      r.trace.gShadow == shadowStep.G && r.state.gShadow.memory == shadowStep.memory
    // tuning never changes; with size-keeping adaptation neither do the lengths
    ensures r.state.gMain.config == st.gMain.config && r.state.gShadow.config == st.gShadow.config
    ensures AdaptKeepsSize(ops) ==>
      r.state.main.sizePartitions == st.main.sizePartitions
      && r.state.shadow.sizePartitions == st.shadow.sizePartitions
  {
    var y := capture;

    // Main path: predict with the unadapted main filter, clip, transform.
    var sMainFreq := ops.filter(st.main, rb);
    var pMain := PredictionError(ops.fft, sMainFreq, y, true);
    var eMainFreq := ops.fft.zeroPaddedFft(pMain.e, Hanning);
    var eMainNonwindowed := ops.fft.zeroPaddedFft(pMain.e, Rectangular);

    // Shadow path: the same with the shadow filter, one window only.
    var sShadowFreq := ops.filter(st.shadow, rb);
    var pShadow := PredictionError(ops.fft, sShadowFreq, y, false);
    var eShadowFreq := ops.fft.zeroPaddedFft(pShadow.e, Hanning);

    var converged := UpdateConvergence(st.convergedFilter, pMain.e, pShadow.e, y);

    var output := SubtractorOutput(
      pMain.s.value, pMain.e, pShadow.e, eMainFreq, eMainNonwindowed,
      ops.spectrum(eMainFreq), ops.spectrum(eMainNonwindowed), ops.spectrum(eShadowFreq));

    // Main gain and adaptation, over the main filter's partitions.
    var x2Main := ops.spectralSum(rb, st.main.sizePartitions);
    var mainStep := ops.mainGainCompute(st.gMain, x2Main, analyzer, output, st.main,
                                        aecState.saturatedCapture);
    var main := ops.adapt(st.main, rb, mainStep.G);

    // Shadow gain: the sum is recomputed only when the lengths now differ.
    var x2Shadow :=
      if st.shadow.sizePartitions != main.sizePartitions
      then ops.spectralSum(rb, st.shadow.sizePartitions)
      else x2Main;
    var shadowStep := ops.shadowGainCompute(st.gShadow, x2Shadow, analyzer, eShadowFreq,
                                            st.shadow.sizePartitions, aecState.saturatedCapture);
    var shadow := ops.adapt(st.shadow, rb, shadowStep.G);

    ProcessResult(
      Subtractor(main, shadow,
                 MainGain(st.gMain.config, mainStep.memory),
                 ShadowGain(st.gShadow.config, shadowStep.memory),
                 converged),
      output,
      ProcessTrace(x2Main, x2Shadow, mainStep.G, shadowStep.G))
  }
}

=== FILE: subtractor_runs.dfy ===
/**
 The subtractor over time: a run is a sequence of events, each either one
 processed capture block or one echo path change, applied left to right.
 The lemmas here relate whole runs: the converged flag is sticky between
 resets, quiet blocks never move it, and a subtractor built by `Create` keeps
 equal filter lengths, so its two gains always see the same spectral sum.
 */
module SubtractorRuns {
  import opened Aec3Common
  import opened Aec3Collaborators
  import opened Energy
  import opened PredictionErrorStage
  import opened EchoSubtractor

  datatype Event =
    | CaptureBlock(rb: RenderBuffer, capture: Block, analyzer: RenderSignalAnalyzer, aecState: AecState)
    | EchoPathChange(v: EchoPathVariability)

  /** One event applied to the subtractor. A block keeps a set flag and
      leaves it alone when quiet; a path change clears it exactly when it
      resets. Neither kind of event changes gain tuning, nor, with fixed-size
      filters, filter lengths. */
  function Step(ops: Collaborators, st: Subtractor, ev: Event): (r: Subtractor)
    ensures st.convergedFilter && !IsReset(ev) ==> r.convergedFilter
    ensures IsQuiet(ev) && !IsReset(ev) ==> r.convergedFilter == st.convergedFilter
    ensures IsReset(ev) ==> !r.convergedFilter
    ensures r.gMain.config == st.gMain.config && r.gShadow.config == st.gShadow.config
    ensures FixedSizeFilters(ops) ==>
      r.main.sizePartitions == st.main.sizePartitions && r.shadow.sizePartitions == st.shadow.sizePartitions
  {
    match ev
    case CaptureBlock(rb, capture, analyzer, aecState) =>
      Process(ops, st, rb, capture, analyzer, aecState).state
    case EchoPathChange(v) =>
      HandleEchoPathChange(ops, st, v)
  }

  function Run(ops: Collaborators, st: Subtractor, events: seq<Event>): (r: Subtractor)
    decreases |events|
  {
    if |events| == 0 then st else Run(ops, Step(ops, st, events[0]), events[1..])
  }

  /** An echo path change that resets the subtractor. */
  predicate IsReset(ev: Event) {
    ev.EchoPathChange? && RequestsFullReset(ev.v.delayChange)
  }

  /** A capture block too quiet for the convergence test, or no block at all. */
  predicate IsQuiet(ev: Event) {
    ev.CaptureBlock? ==> SumOfSquares(ev.capture) <= kConvergenceEnergyFloor
  }

  /** A capture block whose every sample is zero. */
  predicate IsSilentBlock(ev: Event) {
    ev.CaptureBlock? && forall i :: 0 <= i < |ev.capture| ==> ev.capture[i] == 0.0
  }

  /** Running `a` and then `b` is running `a + b`. */
  lemma {:induction false} RunAppend(ops: Collaborators, st: Subtractor, a: seq<Event>, b: seq<Event>)
    ensures Run(ops, st, a + b) == Run(ops, Run(ops, st, a), b)
    decreases |a|
  {
    if |a| > 0 {
      assert (a + b)[0] == a[0];
      assert (a + b)[1..] == a[1..] + b;
      RunAppend(ops, Step(ops, st, a[0]), a[1..], b);
    } else {
      assert a + b == b;
    }
  }

  /** Once converged, the flag stays set through any run without a reset. */
  lemma {:induction false} ConvergedStaysUntilReset(ops: Collaborators, st: Subtractor, events: seq<Event>)
    requires st.convergedFilter
    requires forall k :: 0 <= k < |events| ==> !IsReset(events[k])
    ensures Run(ops, st, events).convergedFilter
    decreases |events|
  {
    if |events| > 0 {
      assert !IsReset(events[0]);
      ConvergedStaysUntilReset(ops, Step(ops, st, events[0]), events[1..]);
    }
  }

  /** The flag goes from true to false only across a reset. */
  lemma FlagClearedOnlyByReset(ops: Collaborators, st: Subtractor, events: seq<Event>)
    requires st.convergedFilter
    requires !Run(ops, st, events).convergedFilter
    ensures exists k :: 0 <= k < |events| && IsReset(events[k])
  {
    if forall k :: 0 <= k < |events| ==> !IsReset(events[k]) {
      ConvergedStaysUntilReset(ops, st, events);
    }
  }

  /** Whatever came before, a reset leaves the flag cleared. */
  lemma ResetClearsFlagAfterAnyRun(ops: Collaborators, st: Subtractor, events: seq<Event>, v: EchoPathVariability)
    requires RequestsFullReset(v.delayChange)
    ensures !Run(ops, st, events + [EchoPathChange(v)]).convergedFilter
  {
    RunAppend(ops, st, events, [EchoPathChange(v)]);
  }

  /** Quiet blocks and non-resetting path changes never move the flag. */
  lemma {:induction false} QuietRunKeepsFlag(ops: Collaborators, st: Subtractor, events: seq<Event>)
    requires forall k :: 0 <= k < |events| ==> IsQuiet(events[k]) && !IsReset(events[k])
    ensures Run(ops, st, events).convergedFilter == st.convergedFilter
    decreases |events|
  {
    if |events| > 0 {
      assert IsQuiet(events[0]) && !IsReset(events[0]);
      QuietRunKeepsFlag(ops, Step(ops, st, events[0]), events[1..]);
    }
  }

  /** Gain tuning never changes over a run. */
  lemma {:induction false} RunKeepsTuning(ops: Collaborators, st: Subtractor, events: seq<Event>)
    ensures Run(ops, st, events).gMain.config == st.gMain.config
    ensures Run(ops, st, events).gShadow.config == st.gShadow.config
    decreases |events|
  {
    if |events| > 0 {
      RunKeepsTuning(ops, Step(ops, st, events[0]), events[1..]);
    }
  }

  /** With fixed-size filters, filter lengths never change over a run. */
  lemma {:induction false} RunKeepsLengths(ops: Collaborators, st: Subtractor, events: seq<Event>)
    requires FixedSizeFilters(ops)
    ensures Run(ops, st, events).main.sizePartitions == st.main.sizePartitions
    ensures Run(ops, st, events).shadow.sizePartitions == st.shadow.sizePartitions
    decreases |events|
  {
    if |events| > 0 {
      RunKeepsLengths(ops, Step(ops, st, events[0]), events[1..]);
    }
  }

  /** For a subtractor built by `Create` with fixed-size filters, both filters
      keep the configured length through any run, so at every later block the
      shadow gain is given the very spectral sum computed for the main gain. */
  lemma CreatedSubtractorSharesSpectralSum(
    ops: Collaborators, config: FilterConfig, events: seq<Event>,
    rb: RenderBuffer, capture: Block, analyzer: RenderSignalAnalyzer, aecState: AecState)
    requires FixedSizeFilters(ops)
    ensures Run(ops, Create(ops, config), events).main.sizePartitions == config.lengthBlocks
    ensures Run(ops, Create(ops, config), events).shadow.sizePartitions == config.lengthBlocks
    ensures
      var r := Process(ops, Run(ops, Create(ops, config), events), rb, capture, analyzer, aecState);
      r.trace.x2Shadow == r.trace.x2Main == ops.spectralSum(rb, config.lengthBlocks)
  {
    RunKeepsLengths(ops, Create(ops, config), events);
  }

  // ---------------------------------------------------------------------------
  // Scenarios

  /** An all-zero capture block has zero energy, so it never moves the flag. */
  lemma SilentCaptureKeepsFlag(
    ops: Collaborators, st: Subtractor, rb: RenderBuffer, capture: Block,
    analyzer: RenderSignalAnalyzer, aecState: AecState)
    requires forall i :: 0 <= i < kBlockSize ==> capture[i] == 0.0
    ensures Process(ops, st, rb, capture, analyzer, aecState).state.convergedFilter == st.convergedFilter
  {
    SumOfSquaresOfSilence(capture);
  }

  /** A freshly created subtractor fed only silent capture blocks never
      reports a converged filter. */
  lemma SilentBlocksNeverConverge(ops: Collaborators, config: FilterConfig, events: seq<Event>)
    requires forall k :: 0 <= k < |events| ==> IsSilentBlock(events[k])
    ensures !Run(ops, Create(ops, config), events).convergedFilter
  {
    forall k | 0 <= k < |events|
      ensures IsQuiet(events[k]) && !IsReset(events[k])
    {
      SumOfSquaresOfSilence(events[k].capture);
    }
    QuietRunKeepsFlag(ops, Create(ops, config), events);
  }

  /** A main filter that predicts silence passes an in-range capture block
      through as its error, so once the capture energy exceeds the floor the
      main error ratio is 1, above 0.3, and the flag is set. */
  lemma LoudBlockWithSilentFilterSetsFlag(
    ops: Collaborators, st: Subtractor, rb: RenderBuffer, capture: Block,
    analyzer: RenderSignalAnalyzer, aecState: AecState)
    requires !st.convergedFilter
    requires InSampleRange(capture)
    requires SumOfSquares(capture) > kConvergenceEnergyFloor
    requires forall k :: kFftLengthBy2 <= k < kFftLength ==> ops.fft.ifft(ops.filter(st.main, rb))[k] == 0.0
    ensures Process(ops, st, rb, capture, analyzer, aecState).output.eMain == capture
    ensures Process(ops, st, rb, capture, analyzer, aecState).state.convergedFilter
  {
    SilentPredictionPassesCapture(ops.fft, ops.filter(st.main, rb), capture, true);
  }

  /** A full-scale capture block (every sample at +32767 or -32767) has
      energy 64 * 32767^2, far above the floor, so a main filter that
      predicts silence sets the flag on it. */
  lemma FullScaleBlockWithSilentMainFilterSetsFlag(
    ops: Collaborators, st: Subtractor, rb: RenderBuffer, capture: Block,
    analyzer: RenderSignalAnalyzer, aecState: AecState)
    requires !st.convergedFilter
    requires forall i :: 0 <= i < kBlockSize ==> capture[i] == 32767.0 || capture[i] == -32767.0
    requires forall k :: kFftLengthBy2 <= k < kFftLength ==> ops.fft.ifft(ops.filter(st.main, rb))[k] == 0.0
    ensures Process(ops, st, rb, capture, analyzer, aecState).output.eMain == capture
    ensures SumOfSquares(capture) == 64.0 * 32767.0 * 32767.0
    ensures Process(ops, st, rb, capture, analyzer, aecState).state.convergedFilter
  {
    FullScaleBlockIsLoud(capture);
    LoudBlockWithSilentFilterSetsFlag(ops, st, rb, capture, analyzer, aecState);
  }

  /** A full-scale block lies in the sample range and its energy,
      64 * 32767^2, exceeds the floor. */
  lemma FullScaleBlockIsLoud(capture: Block)
    requires forall i :: 0 <= i < kBlockSize ==> capture[i] == 32767.0 || capture[i] == -32767.0
    ensures InSampleRange(capture)
    ensures SumOfSquares(capture) == 64.0 * 32767.0 * 32767.0
    ensures SumOfSquares(capture) > kConvergenceEnergyFloor
  {
    forall i | 0 <= i < |capture|
      ensures capture[i] * capture[i] == 32767.0 * 32767.0
    {
    }
    SumOfSquaresOfConstantPower(capture, 32767.0 * 32767.0);
  }

  /** The rule of the source: the shadow spectral sum is only recomputed
      when the shadow length differs from the main filter's length AFTER
      adaptation. So if adaptation resizes the main filter to the shadow's
      length, the shadow gain is handed the sum computed for the main
      filter's old length. */
  lemma ResizingAdaptationReusesMainSpectralSum(
    ops: Collaborators, st: Subtractor, rb: RenderBuffer, capture: Block,
    analyzer: RenderSignalAnalyzer, aecState: AecState)
    requires Process(ops, st, rb, capture, analyzer, aecState).state.main.sizePartitions
             == st.shadow.sizePartitions
    ensures Process(ops, st, rb, capture, analyzer, aecState).trace.x2Shadow
            == ops.spectralSum(rb, st.main.sizePartitions)
  {
  }

  /** Why the shadow-sum guarantee needs size-keeping adaptation: with an
      adaptation that resizes every filter to 2 partitions, a main filter of
      1 partition and a shadow filter of 2, the shadow gain is given the sum
      over 1 partition rather than 2. */
  lemma ShadowSumNeedsSizeKeepingAdaptation()
    ensures exists ops: Collaborators, st: Subtractor, rb: RenderBuffer, capture: Block,
                   analyzer: RenderSignalAnalyzer, aecState: AecState ::
      Process(ops, st, rb, capture, analyzer, aecState).trace.x2Shadow
        != ops.spectralSum(rb, st.shadow.sizePartitions)
  {
    var zeroFft := FftData([], []);
    var zeroBuffer: FftBuffer := seq(kFftLength, _ => 0.0);
    var fft := Aec3Fft(_ => zeroBuffer, (_, _) => zeroFft);
    var zeroSpectrum: Spectrum := seq(kFftLengthBy2Plus1, _ => 0.0);
    var ops := Collaborators(
      fft,
      _ => zeroSpectrum,
      (_, n: nat) => seq(kFftLengthBy2Plus1, _ => n as real),
      (n: nat) => AdaptiveFilter(n, []),
      (_, _) => zeroFft,
      (_, _, _) => AdaptiveFilter(2, []),   // adaptation that resizes every filter to 2 partitions
      (f: AdaptiveFilter) => f,
      _ => [],
      (_, _, _, _, _, _) => GainStep([], zeroFft),
      (_, _) => [],
      _ => [],
      (_, _, _, _, _, _) => GainStep([], zeroFft),
      _ => []);
    var st := Subtractor(
      AdaptiveFilter(1, []), AdaptiveFilter(2, []),
      MainGain(MainGainConfig(0.0, 0.0, 0.0, 0.0), []),
      ShadowGain(ShadowGainConfig(0.0, 0.0), []),
      false);
    var rb := RenderBuffer([]);
    var capture: Block := seq(kBlockSize, _ => 0.0);
    var analyzer := RenderSignalAnalyzer([]);
    var aecState := AecState(false);
    var r := Process(ops, st, rb, capture, analyzer, aecState);
    assert r.trace.x2Shadow == ops.spectralSum(rb, 1);
    assert r.trace.x2Shadow[0] == 1.0;
    assert ops.spectralSum(rb, 2)[0] == 2.0;
  }
}
